=== FILE: README.md ===
# Title translation for an AI-agent news list, in Dafny

This project models the three pieces of logic the news front end runs when it
shows Hacker News stories, with their titles machine-translated into Chinese
on request:

- **the batch translation endpoint** (`Route`, `route.dfy`). `POST
  {texts, targetLang}` validates the body. It looks every text up in a
  process-wide cache keyed `targetLang:text`. It calls the upstream translator
  for each text the cache does not answer and stores every successful result.
  It then answers `{translations}` in input order, or a single 502 if
  anything failed.
- **the client hook** `useTranslatedTexts` (`Hook`, `hook.dfy`). It is a state
  record advanced by three events:
  - `Change`: one run of the effect. It passes the texts through in English
    mode, answers from the client cache when it can, and otherwise issues a
    request.
  - `Settle`: the end of one request's promise chain, tagged with the
    request's id.
  - `Unmount`: the component is removed.

  Request ids stand for the `AbortController`s.
- **the news list's pure parts** (`NewsList`, `news_list.dfy`): the
  relative-time label, the title fallback, and the link and domain fallbacks.

`Base` (`base.dfy`) holds `Option`, `Result` and `Join`. `Join` is
JavaScript's `Array.prototype.join`, which both the endpoint's answer and the
hook's cache key are built from.

Inputs the model receives as parameters:

- The upstream translator is a function from (text, target language) to its
  reply. A reply is either "unreachable" or a status with an optional segment
  array. The array is absent when `res.json()` or `data[0].map(...)` throws.
- `getDomain`'s URL parser is a function argument.
- The current time enters only as the millisecond difference `diff`.

How the code's JavaScript semantics are modelled:

- Inside one batch, every `cache.get` runs before any upstream call resumes.
  The batch is therefore modelled as all lookups against the cache as it was
  at the start, followed by all inserts. Two equal texts in one batch both
  miss, and both are sent upstream.
- The endpoint's cache check is JavaScript truthiness. A stored empty string
  counts as a miss, so the text is fetched again and the entry is overwritten.
- The client cache check is also truthiness, but it stores arrays, which are
  always truthy. Any stored entry, even an empty list, counts as a hit.

Where the code does something a reader might not expect, the model follows
the code:

- A request body that is not JSON makes `request.json()` throw inside the
  `try`. A body that is the JSON literal `null` parses, but destructuring it
  throws inside the `try` too. Both are answered 502, not with the 400
  validation error.
- When one upstream call of a batch fails, `Promise.all` rejects and the
  answer is 502. The other closures keep running, so their successful results
  are still written to the cache. The model stores them.
- A cancelled request is not free of effects: its `finally` clears `loading`.
  See Findings below.

## Model

| member | source | states |
|---|---|---|
| Route.Post | src/app/api/translate/route.ts:30-60 | `POST` answers only 200, 400 or 502. It carries translations exactly when it answers 200, and then exactly one per text of a valid body. The cache never loses a key, even when the answer is an error. |
| Route.TranslateText | src/app/api/translate/route.ts:8-25 | The upstream call succeeds exactly when the reply arrived with a 2xx status and a segment array. A non-2xx status fails with that status. The translation is the joined first elements of the segments. |
| Route.JoinSegmentsSmall | src/app/api/translate/route.ts:21-24 | No segments give "". One non-empty segment gives its first element. |
| Route.JoinSegmentsInOrder | src/app/api/translate/route.ts:21-24 | The translation is the segments' first elements in segment order, with nothing between them: splitting the payload in two splits the translation at the same place. |
| Base.JoinEmptyAppend | src/app/api/translate/route.ts:24 | `join("")` of two concatenated lists is the concatenation of their joins. |
| Route.Key | src/app/api/translate/route.ts:43 | The server cache key, `targetLang:text`. Route.KeyInjective and Route.KeyCollides state when two keys are equal. |
| Route.KeyCollides | src/app/api/translate/route.ts:43 | Keys of different target languages can collide: `zh` with `CN:x` and `zh:CN` with `x` share a key. |
| Route.Resolve | src/app/api/translate/route.ts:42-50 | A text is answered from the cache exactly when its key holds a non-empty value, so a cache answer is never "". Otherwise the text's closure fails exactly when the upstream call fails. |
| Route.Store | src/app/api/translate/route.ts:47-48 | The batch's inserts never remove a key. Route.StoreKeys, Route.StoreKeeps and Route.StoreWrites state exactly which keys and values change. |
| Route.KeyInjective | src/app/api/translate/route.ts:43 | Within one target language, two cache keys are equal exactly when the texts are equal. |
| Route.StoreKeys | src/app/api/translate/route.ts:47-48 | After the batch's inserts, the cache's keys are its old keys plus the keys of the successful upstream calls, and nothing else. |
| Route.StoreKeeps | src/app/api/translate/route.ts:47-48 | A key that no successful call of the batch writes keeps its value. |
| Route.StoreWrites | src/app/api/translate/route.ts:47-48 | Every successful upstream call leaves its own result under its key, even when a duplicate text writes the same key again. |
| Route.StoreIdle | src/app/api/translate/route.ts:47-48 | A batch whose only writes put "" where "" already is leaves the cache unchanged. |
| Route.MissesCount | src/app/api/translate/route.ts:41-47 | A text is sent upstream as many times as it occurs in the batch when the cache at batch start held no non-empty value for it, and never otherwise. |
| Route.PostRejectsMissingFields | src/app/api/translate/route.ts:34-39 | A body that parses to an object gets 400 exactly when `texts` is absent or empty, or `targetLang` is absent or "". The answer then carries the fixed message, makes no upstream call and leaves the cache unchanged. |
| Route.UnparseableIs502 | src/app/api/translate/route.ts:30-58 | A body that is not JSON, or is `null`, gets the 502 error, with no upstream call and the cache unchanged. |
| Route.PostAllOrNothing | src/app/api/translate/route.ts:41-58 | A valid batch either gets 200 or gets exactly the 502 error with no translations. It gets 200 exactly when every upstream call it makes succeeds. Then it has one translation per text, in input order: the cached value for a hit, the upstream's translation for a miss. |
| Route.UpstreamFailureIs502 | src/app/api/translate/route.ts:47-58 | One failed upstream call for a text the cache does not answer turns the whole batch into the 502 error. A non-2xx status is such a failure. |
| Route.PostCallsOnlyMisses | src/app/api/translate/route.ts:41-47 | The batch calls upstream for a text exactly when the cache at batch start held no non-empty value for its key, once per occurrence, and for no text outside the batch. |
| Route.PostCacheAppendOnly | src/app/api/translate/route.ts:43-48 | After any valid batch, successful or not: (1) no key is lost; (2) the keys added are those of successful calls; (3) entries that answered lookups keep their values; (4) each successful call's result is stored under its key, replacing a stored "". |
| Route.SuccessSettlesCache | src/app/api/translate/route.ts:43-48 | After a successful batch, every text's key holds that text's translation. A second lookup answers the text from the cache when that translation is non-empty, and fetches "" again when it is empty. |
| Route.ResolveAgain | src/app/api/translate/route.ts:43-48 | After any batch, successful or not, looking a text up again finds the following. A cached value or a non-empty translation is now answered from the cache. An empty translation is fetched again. A failed text fails again, because its key was never written. |
| Route.RepeatAnswers | src/app/api/translate/route.ts:41-58 | The same batch sent again, to the same upstream, gets the same response, whether the first one got 200 or 502. |
| Route.RepeatKeepsCache | src/app/api/translate/route.ts:41-58 | The same batch sent again leaves the cache as the first batch left it, whether the first one got 200 or 502. |
| Route.PostIdempotent | src/app/api/translate/route.ts:41-58 | Repeating any valid batch gives the same answer and the same cache. The second time, the only texts sent upstream are those whose call failed or whose translation was "". After a 200, those are exactly the texts whose translation is "". |
| Route.HelloWorldExample | src/app/api/translate/route.ts:19-24 | A worked example: "Hello world" in a cold cache, with the upstream answering one segment, gets that segment's first element. |
| Base.JoinNewlineInjective | src/app/hooks/useTranslation.ts:10 | For non-empty lists of single-line texts, the newline joins are equal exactly when the lists are. |
| Hook.CacheKey | src/app/hooks/useTranslation.ts:9-11 | The client cache key, the target language, a colon, and the texts joined by newlines. Hook.CacheKeyCollides and Hook.CacheKeyInjective state when two lists share it. |
| Hook.CacheKeyCollides | src/app/hooks/useTranslation.ts:9-11 | `["a\nb"]` and `["a", "b"]` get the same client cache key. |
| Hook.CacheKeyInjective | src/app/hooks/useTranslation.ts:9-11 | When no text contains a newline, two non-empty lists get the same key exactly when they are equal. |
| Hook.Effect | src/app/hooks/useTranslation.ts:21-49 | One run of the effect never writes the client cache. It sets `loading` exactly when the locale is Chinese and the key is not cached. It then keeps showing the old list, makes a fresh id current, and adds exactly one pending request for the texts under their key. Otherwise it issues no request and leaves no cleanup. |
| Hook.SettleRequest | src/app/hooks/useTranslation.ts:50-63 | The end of a request's chain removes it from the pending requests and touches no controller. `loading` is cleared when the id was pending. A request that is not live changes neither what is shown nor the cache. Only a live request writes the cache, storing under its own key the list it shows. |
| Hook.RunCleanup | src/app/hooks/useTranslation.ts:65 | The previous run's cleanup `() => controller.abort()` aborts the request that run issued, so that request is no longer live. It issues nothing, leaves no cleanup behind, and does not change what is shown, `loading` or the cache. |
| Hook.Step | src/app/hooks/useTranslation.ts:21-66 | A change first runs the previous run's cleanup, which aborts its request, and then runs the effect. A settlement ends one chain. Unmount runs the cleanup only, so it changes neither what is shown, `loading` nor the cache. Only the settlement of a live request writes the client cache. Hook.StepWellformed and Hook.UnmountAborts state what it guarantees over time. |
| Hook.MountShowsTexts | src/app/hooks/useTranslation.ts:17-18 | Before the first effect the hook shows the texts it was given and is not loading. A mount that issues a request keeps showing those texts while the request is in flight. |
| Hook.EnglishPassesThrough | src/app/hooks/useTranslation.ts:23-27 | In English mode: (1) `translated` becomes the texts; (2) `loading` is false; (3) no request is issued; (4) the cache is not written; (5) no request stays live. |
| Hook.CacheHitShowsCached | src/app/hooks/useTranslation.ts:30-36 | In Chinese mode with the `zh-CN` key cached, the cached list is shown at once. `loading` is false, no request is issued, and the cache is unchanged. |
| Hook.CacheMissIssuesRequest | src/app/hooks/useTranslation.ts:38-49 | In Chinese mode with a cache miss: (1) the previous request is aborted; (2) a fresh id becomes current and is the only live request; (3) `loading` is set; (4) a request for the texts under the `zh-CN` key is pending; (5) what is shown and the cache are unchanged. |
| Hook.SettleLive | src/app/hooks/useTranslation.ts:51-63 | When a live request settles: a body with `translations` is shown and cached under the request's key. A body without it changes neither. A network error shows the request's own texts again. `loading` is cleared in every case. |
| Hook.SettleAborted | src/app/hooks/useTranslation.ts:57-63 | When an aborted request settles, what is shown and the cache are unchanged whatever it received, and its `finally` clears `loading`. |
| Hook.SettleUnknownIgnored | src/app/hooks/useTranslation.ts:44-63 | A settlement for an id that is not pending changes nothing. |
| Hook.StaleResponseDiscarded | src/app/hooks/useTranslation.ts:38-40 | A pending request that is no longer `abortRef.current` cannot change what is shown or the cache, whatever it receives. |
| Hook.LatestChangeWins | src/app/hooks/useTranslation.ts:21-66 | Suppose A then B both miss, A's request settles late, and then B's request brings translations. B's translations are what is shown. |
| Hook.SettlementsChangeNothingShown | src/app/hooks/useTranslation.ts:50-63 | With no request live, any sequence of settlements changes neither what is shown nor the cache, and no request becomes live. |
| Hook.UnmountAborts | src/app/hooks/useTranslation.ts:65 | After unmount, no request is live, so the settlements that arrive later change neither what is shown nor the cache. Their `finally` still clears `loading`. |
| Hook.MountWellformed | src/app/hooks/useTranslation.ts:17-42 | The mounted hook satisfies the invariant: ids are issued in order, and the only live request is the one the latest run's cleanup will abort. |
| Hook.StepWellformed | src/app/hooks/useTranslation.ts:21-66 | Every event (change, settlement, unmount) preserves that invariant. |
| Hook.RunWellformed | src/app/hooks/useTranslation.ts:21-66 | The invariant holds after any sequence of events. |
| Hook.AtMostOneLive | src/app/hooks/useTranslation.ts:38-42 | Under the invariant, at most one request is in flight and not aborted. |
| Hook.AbortedSettleHidesSpinner | src/app/hooks/useTranslation.ts:63 | As written: mount, re-run the effect, then let the first request's abort settle. `loading` ends up false while the second request is live. |
| Hook.CorrectedAgreesElsewhere | src/app/hooks/useTranslation.ts:57-63 | The corrected step equals the as-written one except when an aborted request settles, and then it differs only in `loading`. |
| Hook.StepCorrectedShowsLoading | src/app/hooks/useTranslation.ts:42-63 | With the correction, every event keeps the invariant and keeps `loading` set while the latest request is in flight. |
| Hook.RunCorrectedShowsLoading | src/app/hooks/useTranslation.ts:42-63 | With the correction, `loading` is set while the latest request is in flight, after any sequence of events. |
| Hook.MountShowsLoading | src/app/hooks/useTranslation.ts:42 | The mounted hook is loading whenever its request is in flight. |
| NewsList.TimeAgo | src/app/components/NewsList.tsx:35-42 | The label is the largest unit with a positive floored count: days from one day on, hours from one hour, minutes from one minute. Anything under a minute, including the future, is "just now". The count is at least 1 and is the number of whole units elapsed. Hours are at most 23 and minutes at most 59. |
| NewsList.TimeAgoMonotonic | src/app/components/NewsList.tsx:39-42 | An older story never gets a label of a smaller unit. |
| NewsList.DisplayTitle | src/app/components/NewsList.tsx:93 | A shown title is a translated title or the story's own title, never anything else. When the translated list reaches the story's position, it is the translation at that position. |
| NewsList.DisplayTitlesFallBack | src/app/components/NewsList.tsx:93 | Each shown title is the translation at its position when the translated list reaches that far, and the story's own title otherwise. Untranslated titles show as themselves. |
| NewsList.EmptyTranslationShown | src/app/components/NewsList.tsx:93 | `??` does not fall back on an empty translation: "" is shown. |
| NewsList.HnItemUrlIdentifies | src/app/components/NewsList.tsx:90 | Two stories have the same item URL exactly when they have the same id, so each story links to its own page. |
| NewsList.Domain | src/app/components/NewsList.tsx:18-25 | The domain shown is either `news.ycombinator.com` or the host the parser read from the story's own non-empty url. |
| NewsList.LinkUrl | src/app/components/NewsList.tsx:91 | The link is never empty. It is either the story's own url or its item page. |
| NewsList.MissingUrlFallsBack | src/app/components/NewsList.tsx:18-25 | The domain is `news.ycombinator.com` for a missing url, an empty url, or a url the parser rejects. Otherwise it is the parser's host. |
| NewsList.LinkFallsBack | src/app/components/NewsList.tsx:91 | A missing or empty url links to the story's item page. Any other url links to itself. |
| NewsList.EnglishShowsOwnTitles | src/app/components/NewsList.tsx:50-54 | In English mode, every story's own title is shown and nothing is loading. |

## Left out

- Network I/O and JSON parsing: `fetch` to the upstream and to the endpoint, and `res.json()`. Their outcomes are inputs: an upstream `Reply` and a hook `Settlement`.
- The URL of the upstream query and the error message text thrown by `translateText`.
- Texts that contain an unpaired UTF-16 surrogate: Dafny strings cannot hold them. In the code, `encodeURIComponent` throws for such a text before any fetch, so its batch gets 502 without that upstream call.
- Request bodies whose `texts` is present but not an array, and non-string `targetLang` values. The model's body has an optional list of strings and an optional string.
- Concurrency beyond the ordering "all lookups, then the inserts". Upstream calls complete in any order. Because the model's upstream is a function, duplicates write equal values, so the model inserts in input order. Concurrent `POST`s sharing the cache are left out too.
- Route.StoreWrites: assumes a deterministic upstream, because the upstream is modelled as a function of (text, target language). A real provider can answer two equal texts of one batch differently, for example when one call is rate-limited and the other is not. The last completed `cache.set` then wins, so a duplicate's own result need not be what stays stored. Route.PostIdempotent and the other repeat lemmas rest on the same assumption.
- The stale-response race after the body has been read. A request aborted before it settles is modelled as rejecting with an AbortError, whatever its response was.
- The client cache is shared by every hook instance in the page. The model has one hook instance.
- React rendering, re-render scheduling, dependency comparison by identity, and the state updates React drops after unmount. Each effect run is one `Change` event.
- `Date.now()`, date-string parsing and floating-point division. `diff` is an integer, and `Math.floor` of a double quotient is taken to be the exact floored quotient.
- `new URL(...).hostname` and the `www.` replacement in `getDomain`. These are foreign URL handling, passed in as a function.
- The formatter strings of src/app/i18n/translations.ts. The model returns which formatter is used and its count.
- LanguageContext.tsx (localStorage and `document.documentElement`), LanguageSwitcher.tsx, and the news fetch in page.tsx. They are storage, DOM and network glue around a two-value locale toggle.

## Findings

| source | as written | input that shows it | evidently intended | confidence | as-written member | corrected member |
|---|---|---|---|---|---|---|
| src/app/hooks/useTranslation.ts:63 | The `finally` handler clears `loading` for an aborted request too, even while the run that aborted it has its own request in flight. | A mount with a cache miss in React's development mode (effect, cleanup, effect), followed by the first request's AbortError. Any change of `texts` while a request is pending does the same. | A cancelled request changes no state. `loading` stays set until the latest request settles. | medium, not executed | Hook.AbortedSettleHidesSpinner | Hook.RunCorrectedShowsLoading |

`Hook.StepCorrected` differs from `Hook.Step` only in how an aborted request
settles. By `Hook.CorrectedAgreesElsewhere`, every other `Hook` lemma about
what is shown, the cache and the live request also holds for the corrected
step.

=== FILE: base.dfy ===
/** Small value types shared by the endpoint and the client hook, and the one
    string operation both of them build their keys and answers from:
    JavaScript's `Array.prototype.join`. */
module Base {

  /** A value that may be absent: JSON `null`, a missing field, `undefined`. */
  datatype Option<+T> = None | Some(value: T)

  /** The outcome of an operation that may throw. */
  datatype Result<+T, +E> = Ok(value: T) | Err(error: E)

  /** `parts.join(sep)`: the parts in order, with `sep` between neighbours. */
  function Join(parts: seq<string>, sep: string): string
  {
    if |parts| == 0 then ""
    else if |parts| == 1 then parts[0]
    else parts[0] + sep + Join(parts[1..], sep)
  }

  /** A string in which the newline character does not occur. */
  predicate SingleLine(s: string)
  {
    '\n' !in s
  }

  /** Joining with the empty separator is a monoid homomorphism: the join of
      two lists is the join of the first followed by the join of the second. */
  lemma {:induction false} JoinEmptyAppend(a: seq<string>, b: seq<string>)
    ensures Join(a + b, "") == Join(a, "") + Join(b, "")
  {
    if |a| == 0 {
      assert a + b == b;
    } else if |a| == 1 {
      if |b| != 0 {
        assert (a + b)[1..] == b;
      }
    } else {
      assert (a + b)[1..] == a[1..] + b;
      JoinEmptyAppend(a[1..], b);
    }
  }

  /** Joining non-empty lists of single-line strings with a newline loses no
      information: the two lists are equal exactly when their joins are. */
  lemma {:induction false} JoinNewlineInjective(xs: seq<string>, ys: seq<string>)
    requires |xs| > 0 && |ys| > 0
    requires forall k :: 0 <= k < |xs| ==> SingleLine(xs[k])
    requires forall k :: 0 <= k < |ys| ==> SingleLine(ys[k])
    ensures Join(xs, "\n") == Join(ys, "\n") <==> xs == ys
    decreases |xs|
  {
    if Join(xs, "\n") == Join(ys, "\n") {
      var a, b := xs[0], ys[0];
      var j := Join(xs, "\n");
      if |xs| == 1 && |ys| > 1 {
        assert false;
      } else if |xs| > 1 && |ys| == 1 {
        assert false;
      } else if |xs| > 1 && |ys| > 1 {
        var jx, jy := Join(xs[1..], "\n"), Join(ys[1..], "\n");
        assert j == a + "\n" + jx;
        assert j == b + "\n" + jy;
        // The first newline of the join ends the first part on either side.
        assert forall i :: 0 <= i < |b| ==> j[i] == b[i] && j[i] != '\n';
        assert forall i :: 0 <= i < |a| ==> j[i] == a[i] && j[i] != '\n';
        assert j[|a|] == '\n' && j[|b|] == '\n';
        assert |a| == |b|;
        assert a == j[..|a|] == b;
        assert jx == j[|a| + 1..] == jy;
        JoinNewlineInjective(xs[1..], ys[1..]);
        assert xs == [a] + xs[1..];
        assert ys == [b] + ys[1..];
      }
    }
  }
}

=== FILE: hook.dfy ===
/** The client hook `useTranslatedTexts(texts, locale)` as a state machine.

    Each run of the effect (on mount and whenever `texts` or `locale`
    changes) is a `Change` event; each promise chain of a `fetch` it started
    finishes in a `Settle` event carrying the request's id; unmounting is an
    `Unmount` event. A request id stands for the `AbortController` the run
    created: `current` is `abortRef.current`, `cleanup` is the controller the
    latest run's cleanup function will abort. The client cache is the
    module-level map, shared by every run. */
module Hook {
  import opened Base

  /** `Locale` of the i18n tables. */
  datatype Locale = Zh | En

  /** The target language every non-English run asks for. */
  const TargetLang := "zh-CN"

  /** `getCacheKey(texts, targetLang)`. */
  function CacheKey(texts: seq<string>, targetLang: string): string
  {
    targetLang + ":" + Join(texts, "\n")
  }

  /** The module-level `clientCache`. */
  type ClientCache = map<string, seq<string>>

  /** What the callbacks of one issued request captured. */
  datatype Request = Request(texts: seq<string>, key: string)

  datatype State = State(
    translated: seq<string>,
    loading: bool,
    current: Option<nat>,        // abortRef.current
    cleanup: Option<nat>,        // the controller the latest run's cleanup aborts
    pending: map<nat, Request>,  // issued requests whose promise chain has not finished
    aborted: set<nat>,           // controllers on which abort() has been called
    nextId: nat,
    cache: ClientCache)

  /** How the promise chain of a request that was not aborted finished. */
  datatype Settlement =
    | WithTranslations(translations: seq<string>)  // the body carried `translations`
    | WithoutTranslations                          // e.g. a 400 or 502 error body
    | NetworkError                                 // fetch or res.json() rejected

  datatype Event =
    | Change(texts: seq<string>, locale: Locale)
    | Settle(id: nat, settlement: Settlement)
    | Unmount

  /** The hook's first render, before any effect ran: `useState(texts)` and
      `useState(false)`, no controller. */
  function Initial(texts: seq<string>, cache: ClientCache): State
  {
    State(texts, false, None, None, map[], {}, 0, cache)
  }

  /** A request that may still change the state: issued, not settled, not
      aborted. */
  predicate Live(s: State, id: nat)
  {
    id in s.pending && id !in s.aborted
  }

  /** `controller.abort()`; aborting a finished request changes nothing. */
  function Abort(s: State, id: Option<nat>): State
  {
    if id.Some? && id.value in s.pending then s.(aborted := s.aborted + {id.value}) else s
  }

  /** The previous run's cleanup `() => controller.abort()`, if it returned one. */
  function RunCleanup(s: State): (r: State)
    ensures r.cleanup.None? && r.pending == s.pending && r.nextId == s.nextId
    ensures r.translated == s.translated && r.loading == s.loading && r.cache == s.cache
    ensures forall id: nat :: Live(r, id) ==> Live(s, id) && s.cleanup != Some(id)
  {
    Abort(s, s.cleanup).(cleanup := None)
  }

  /** The body of the effect for `(texts, locale)`. */
  function Effect(s: State, texts: seq<string>, locale: Locale): (r: State)
    ensures r.cache == s.cache
    ensures r.loading <==> locale.Zh? && CacheKey(texts, TargetLang) !in s.cache
    ensures r.loading ==>
              && r.translated == s.translated && r.nextId == s.nextId + 1
              && r.current == r.cleanup == Some(s.nextId)
              && r.pending == s.pending[s.nextId := Request(texts, CacheKey(texts, TargetLang))]
    ensures !r.loading ==> r.pending == s.pending && r.nextId == s.nextId && r.cleanup.None?
  {
    if locale == En then
      s.(translated := texts, loading := false, cleanup := None)
    else
      var key := CacheKey(texts, TargetLang);
      // `if (cached)`: every stored list, even an empty one, is truthy.
      if key in s.cache then
        s.(translated := s.cache[key], loading := false, cleanup := None)
      else
        var s1 := Abort(s, s.current);
        var id := s1.nextId;
        s1.(current := Some(id), cleanup := Some(id), nextId := id + 1, loading := true,
            pending := s1.pending[id := Request(texts, key)])
  }

  /** The mount: the first render followed by the first run of the effect. */
  function Mount(texts: seq<string>, locale: Locale, cache: ClientCache): State
  {
    Effect(Initial(texts, cache), texts, locale)
  }

  /** The end of request `id`'s promise chain. An aborted request rejects
      with an AbortError, whatever its response would have been. The
      `finally` clears `loading` in every case. */
  function SettleRequest(s: State, id: nat, settlement: Settlement): (r: State)
    ensures r.pending == s.pending - {id} && r.aborted == s.aborted && r.nextId == s.nextId
    ensures r.current == s.current && r.cleanup == s.cleanup
    ensures id in s.pending ==> !r.loading
    ensures !Live(s, id) ==> r.translated == s.translated && r.cache == s.cache
    ensures r.cache != s.cache ==> Live(s, id) && r.cache == s.cache[s.pending[id].key := r.translated]
  {
    if id !in s.pending then s
    else
      var request := s.pending[id];
      var s1 := s.(pending := s.pending - {id}, loading := false);
      if id in s.aborted then s1
      else match settlement
        case WithTranslations(ts) => s1.(cache := s.cache[request.key := ts], translated := ts)
        case WithoutTranslations => s1
        case NetworkError => s1.(translated := request.texts)
  }

  /** One event. A change first runs the previous run's cleanup, which
      aborts its request, then the effect; unmounting runs the cleanup only,
      so it never changes what is shown; only the settlement of a live
      request writes the client cache. */
  function Step(s: State, e: Event): (r: State)
    ensures e.Unmount? ==> r.translated == s.translated && r.cache == s.cache && r.loading == s.loading
    ensures e.Change? ==> r.cleanup.None? || r.cleanup == Some(s.nextId)
    ensures r.cache != s.cache ==> e.Settle? && Live(s, e.id)
  {
    match e
    case Change(texts, locale) => Effect(RunCleanup(s), texts, locale)
    case Settle(id, settlement) => SettleRequest(s, id, settlement)
    case Unmount => RunCleanup(s)
  }

  function Run(s: State, events: seq<Event>): State
    decreases |events|
  {
    if |events| == 0 then s else Run(Step(s, events[0]), events[1..])
  }

  // ---------------------------------------------------------------------
  // The cache key

  /** Lists of texts with the same newline join share one cache entry: one
      title containing a newline collides with the two titles around it. */
  lemma CacheKeyCollides()
    ensures CacheKey(["a\nb"], TargetLang) == CacheKey(["a", "b"], TargetLang)
  {
  }

  /** Without newlines inside the texts the key tells non-empty lists apart. */
  lemma CacheKeyInjective(xs: seq<string>, ys: seq<string>)
    requires |xs| > 0 && |ys| > 0
    requires forall k :: 0 <= k < |xs| ==> SingleLine(xs[k])
    requires forall k :: 0 <= k < |ys| ==> SingleLine(ys[k])
    ensures CacheKey(xs, TargetLang) == CacheKey(ys, TargetLang) <==> xs == ys
  {
    JoinNewlineInjective(xs, ys);
    var p := TargetLang + ":";
    if CacheKey(xs, TargetLang) == CacheKey(ys, TargetLang) {
      assert Join(xs, "\n") == CacheKey(xs, TargetLang)[|p|..];
      assert Join(ys, "\n") == CacheKey(ys, TargetLang)[|p|..];
    }
  }

  // ---------------------------------------------------------------------
  // The invariant the transitions keep

  /** Ids are handed out in order, and every live request is the one the
      latest run issued: `abortRef.current` and the pending cleanup both
      point at it. */
  predicate Wellformed(s: State)
  {
    && (forall id :: id in s.pending ==> id < s.nextId)
    && (forall id :: id in s.aborted ==> id < s.nextId)
    && (s.current.Some? ==> s.current.value < s.nextId)
    && (s.cleanup.Some? ==> s.cleanup == s.current)
    && (forall id :: id in s.pending && id !in s.aborted ==> s.cleanup == Some(id))
  }

  lemma MountWellformed(texts: seq<string>, locale: Locale, cache: ClientCache)
    ensures Wellformed(Mount(texts, locale, cache))
  {
  }

  /** Every event keeps the invariant. */
  lemma StepWellformed(s: State, e: Event)
    requires Wellformed(s)
    ensures Wellformed(Step(s, e))
  {
  }

  /** Every state the hook reaches from its mount is well formed. */
  lemma {:induction false} RunWellformed(s: State, events: seq<Event>)
    requires Wellformed(s)
    ensures Wellformed(Run(s, events))
    decreases |events|
  {
    if |events| > 0 {
      StepWellformed(s, events[0]);
      RunWellformed(Step(s, events[0]), events[1..]);
    }
  }

  /** At most one request is ever in flight: two live requests are the same. */
  lemma AtMostOneLive(s: State, a: nat, b: nat)
    requires Wellformed(s) && Live(s, a) && Live(s, b)
    ensures a == b
  {
  }

  // ---------------------------------------------------------------------
  // What each transition does and does not touch

  /** Before the first effect the hook shows the texts it was given and is
      not loading. Mounting in a mode that needs a request keeps showing
      them while the request is in flight. */
  lemma MountShowsTexts(texts: seq<string>, locale: Locale, cache: ClientCache)
    ensures Initial(texts, cache).translated == texts && !Initial(texts, cache).loading
    ensures Mount(texts, locale, cache).loading ==> Mount(texts, locale, cache).translated == texts
  {
  }

  /** English mode passes the texts through: no request is issued, the cache
      is neither read nor written, and any earlier request is aborted. */
  lemma EnglishPassesThrough(s: State, texts: seq<string>)
    requires Wellformed(s)
    ensures var t := Step(s, Change(texts, En));
      && t.translated == texts && !t.loading
      && t.cache == s.cache && t.nextId == s.nextId && t.pending == s.pending
      && forall id :: !Live(t, id)
  {
  }

  /** Chinese mode with the key in the client cache shows the cached list at
      once and issues no request. */
  lemma CacheHitShowsCached(s: State, texts: seq<string>)
    requires Wellformed(s)
    requires CacheKey(texts, TargetLang) in s.cache
    ensures var t := Step(s, Change(texts, Zh));
      && t.translated == s.cache[CacheKey(texts, TargetLang)] && !t.loading
      && t.cache == s.cache && t.nextId == s.nextId && t.pending == s.pending
      && forall id :: !Live(t, id)
  {
  }

  /** Chinese mode with a cache miss aborts the request in flight, makes a
      fresh id current, sets `loading`, and issues a request for the texts
      under the `zh-CN` key; what is shown and the cache stay as they were. */
  lemma CacheMissIssuesRequest(s: State, texts: seq<string>)
    requires Wellformed(s)
    requires CacheKey(texts, TargetLang) !in s.cache
    ensures var t := Step(s, Change(texts, Zh));
      && t.loading && t.current == Some(s.nextId) && t.nextId == s.nextId + 1
      && s.nextId !in s.pending
      && t.pending == s.pending[s.nextId := Request(texts, CacheKey(texts, TargetLang))]
      && t.translated == s.translated && t.cache == s.cache
      && (forall id :: Live(t, id) <==> id == s.nextId)
  {
  }

  /** Settling a request that is still live: a body with `translations`
      shows them and caches them under the request's key, a body without
      leaves both alone, and a network error falls back to the request's own
      texts. `loading` is cleared in every case. */
  lemma SettleLive(s: State, id: nat, settlement: Settlement)
    requires Live(s, id)
    ensures var t := Step(s, Settle(id, settlement));
      && !t.loading && t.pending == s.pending - {id}
      && match settlement
         case WithTranslations(ts) =>
           t.translated == ts && t.cache == s.cache[s.pending[id].key := ts]
         case WithoutTranslations =>
           t.translated == s.translated && t.cache == s.cache
         case NetworkError =>
           t.translated == s.pending[id].texts && t.cache == s.cache
  {
  }

  /** Settling an aborted request leaves what is shown and the cache alone,
      whatever its response was; its `finally` still clears `loading`. */
  lemma SettleAborted(s: State, id: nat, settlement: Settlement)
    requires id in s.pending && id in s.aborted
    ensures var t := Step(s, Settle(id, settlement));
      t.translated == s.translated && t.cache == s.cache && !t.loading
  {
  }

  /** Only the request the latest run issued can change what is shown: a
      request that is no longer `abortRef.current` has been aborted, so its
      late response is discarded. */
  lemma StaleResponseDiscarded(s: State, id: nat, settlement: Settlement)
    requires Wellformed(s) && id in s.pending && s.current != Some(id)
    ensures Step(s, Settle(id, settlement)).translated == s.translated
    ensures Step(s, Settle(id, settlement)).cache == s.cache
  {
  }

  /** Two quick changes A then B, both missing the cache: whatever A's
      request answers afterwards, B's answer is what ends up shown. */
  lemma LatestChangeWins(s: State, a: seq<string>, b: seq<string>, late: Settlement, ts: seq<string>)
    requires Wellformed(s)
    requires CacheKey(a, TargetLang) !in s.cache && CacheKey(b, TargetLang) !in s.cache
    ensures var s1 := Step(Step(s, Change(a, Zh)), Change(b, Zh));
      var s2 := Step(s1, Settle(s.nextId, late));
      var s3 := Step(s2, Settle(s.nextId + 1, WithTranslations(ts)));
      s3.translated == ts
  {
    CacheMissIssuesRequest(s, a);
    var s0 := Step(s, Change(a, Zh));
    StepWellformed(s, Change(a, Zh));
    CacheMissIssuesRequest(s0, b);
    var s1 := Step(s0, Change(b, Zh));
    assert Live(s1, s.nextId + 1) && !Live(s1, s.nextId);
    var s2 := Step(s1, Settle(s.nextId, late));
    assert Live(s2, s.nextId + 1);
  }

  /** From a state with no live request, any run of settlements changes
      neither what is shown nor the cache, and no request becomes live. */
  lemma {:induction false} SettlementsChangeNothingShown(t: State, events: seq<Event>)
    requires forall id :: !Live(t, id)
    requires forall k :: 0 <= k < |events| ==> events[k].Settle?
    ensures Run(t, events).translated == t.translated && Run(t, events).cache == t.cache
    ensures forall id :: !Live(Run(t, events), id)
    decreases |events|
  {
    if |events| > 0 {
      forall id
        ensures !Live(Step(t, events[0]), id)
      {
        assert !Live(t, id);
      }
      SettlementsChangeNothingShown(Step(t, events[0]), events[1..]);
    }
  }

  /** Unmounting aborts the request in flight, so the settlements that
      arrive afterwards change neither what is shown nor the cache. */
  lemma UnmountAborts(s: State, events: seq<Event>)
    requires Wellformed(s)
    requires forall k :: 0 <= k < |events| ==> events[k].Settle?
    ensures forall id :: !Live(Step(s, Unmount), id)
    ensures Run(Step(s, Unmount), events).translated == s.translated
    ensures Run(Step(s, Unmount), events).cache == s.cache
  {
    SettlementsChangeNothingShown(Step(s, Unmount), events);
  }

  /** Settling an id that is not pending changes nothing: each chain
      finishes once. */
  lemma SettleUnknownIgnored(s: State, id: nat, settlement: Settlement)
    requires id !in s.pending
    ensures Step(s, Settle(id, settlement)) == s
  {
  }

  // ---------------------------------------------------------------------
  // The spinner and aborted requests

  /** While the request the latest run issued is in flight, `loading` is
      set, so the "Translating titles..." line is shown. */
  predicate ShowsLoading(s: State)
  {
    forall id :: id in s.pending && id !in s.aborted ==> s.loading
  }

  /** As written, the `finally` of an aborted request clears `loading` even
      though the run that aborted it has a request of its own in flight.
      React's development mode runs every effect twice on mount (effect,
      cleanup, effect), which is enough: the first request is aborted, the
      second is live, and the first one's `finally` hides the spinner. */
  lemma AbortedSettleHidesSpinner()
    ensures var s0 := Mount(["Hello"], Zh, map[]);
      var s1 := Step(s0, Change(["Hello"], Zh));
      var s2 := Step(s1, Settle(0, NetworkError));
      && ShowsLoading(s1)
      && Live(s2, 1) && !s2.loading && !ShowsLoading(s2)
  {
  }

  /** The intended settlement: a cancelled request performs no state update
      at all; it only leaves the set of pending requests. */
  function SettleCorrected(s: State, id: nat, settlement: Settlement): State
  {
    if id in s.pending && id in s.aborted then s.(pending := s.pending - {id})
    else SettleRequest(s, id, settlement)
  }

  function StepCorrected(s: State, e: Event): State
  {
    match e
    case Settle(id, settlement) => SettleCorrected(s, id, settlement)
    case _ => Step(s, e)
  }

  function RunCorrected(s: State, events: seq<Event>): State
    decreases |events|
  {
    if |events| == 0 then s else RunCorrected(StepCorrected(s, events[0]), events[1..])
  }

  /** The correction changes one case only: on every other event, and on the
      settlement of a request that was not aborted, both steps agree; on the
      settlement of an aborted request they differ in `loading` alone. */
  lemma CorrectedAgreesElsewhere(s: State, e: Event)
    ensures !(e.Settle? && e.id in s.pending && e.id in s.aborted) ==> StepCorrected(s, e) == Step(s, e)
    ensures StepCorrected(s, e) == Step(s, e).(loading := StepCorrected(s, e).loading)
  {
  }

  /** With the correction every event keeps both the invariant and the
      spinner promise. */
  lemma StepCorrectedShowsLoading(s: State, e: Event)
    requires Wellformed(s) && ShowsLoading(s)
    ensures Wellformed(StepCorrected(s, e)) && ShowsLoading(StepCorrected(s, e))
  {
  }

  /** With the correction, from the mount on, the spinner is shown whenever
      the latest run's request is in flight, after any sequence of events. */
  lemma {:induction false} RunCorrectedShowsLoading(s: State, events: seq<Event>)
    requires Wellformed(s) && ShowsLoading(s)
    ensures Wellformed(RunCorrected(s, events)) && ShowsLoading(RunCorrected(s, events))
    decreases |events|
  {
    if |events| > 0 {
      StepCorrectedShowsLoading(s, events[0]);
      RunCorrectedShowsLoading(StepCorrected(s, events[0]), events[1..]);
    }
  }

  lemma MountShowsLoading(texts: seq<string>, locale: Locale, cache: ClientCache)
    ensures ShowsLoading(Mount(texts, locale, cache))
  {
  }
}

=== FILE: news_list.dfy ===
/** The pure parts of the news list: the relative-time label of a story,
    the title it shows, and where its link and domain come from. The current
    time and the story's creation time reach the model only through their
    difference in milliseconds. */
module NewsList {
  import opened Base
  import Hook

  const MinuteMs := 60000
  const HourMs := 3600000
  const DayMs := 86400000

  /** Which formatter of the locale's `timeAgo` table is used, and the count
      it is given; the formatters themselves are strings of the i18n tables. */
  datatype Age = DaysAgo(n: int) | HoursAgo(n: int) | MinutesAgo(n: int) | JustNow

  /** The unit, in milliseconds, of a counted label. */
  function UnitMs(age: Age): int
    requires !age.JustNow?
  {
    match age
    case DaysAgo(_) => DayMs
    case HoursAgo(_) => HourMs
    case MinutesAgo(_) => MinuteMs
  }

  /** `timeAgo(dateStr)` for `diff = now - then`. `Math.floor(diff / d)` for
      a positive `d` is Dafny's `diff / d`, negative `diff` included. The
      label is that of the largest unit with a positive count, the count is
      the number of whole units elapsed, and anything under a minute, a
      future time included, is "just now". */
  function TimeAgo(diff: int): (age: Age)
    ensures age.DaysAgo? <==> diff >= DayMs
    ensures age.HoursAgo? <==> HourMs <= diff < DayMs
    ensures age.MinutesAgo? <==> MinuteMs <= diff < HourMs
    ensures age.JustNow? <==> diff < MinuteMs
    ensures !age.JustNow? ==> 1 <= age.n && age.n * UnitMs(age) <= diff < (age.n + 1) * UnitMs(age)
    ensures age.HoursAgo? ==> age.n <= 23
    ensures age.MinutesAgo? ==> age.n <= 59
  {
    var minutes := diff / MinuteMs;
    var hours := diff / HourMs;
    var days := diff / DayMs;
    if days > 0 then DaysAgo(days)
    else if hours > 0 then HoursAgo(hours)
    else if minutes > 0 then MinutesAgo(minutes)
    else JustNow
  }

  /** The label only moves towards larger units as a story gets older. */
  lemma TimeAgoMonotonic(d1: int, d2: int)
    requires d1 <= d2
    ensures Rank(TimeAgo(d1)) <= Rank(TimeAgo(d2))
  {
  }

  function Rank(age: Age): nat
  {
    match age
    case JustNow => 0
    case MinutesAgo(_) => 1
    case HoursAgo(_) => 2
    case DaysAgo(_) => 3
  }

  // ---------------------------------------------------------------------
  // Titles, links and domains

  /** The fields of a story the list uses for its title, link and domain. */
  datatype Article = Article(objectId: string, title: string, url: Option<string>)

  const HnHost := "news.ycombinator.com"
  const HnItemPrefix := "https://news.ycombinator.com/item?id="

  /** `translatedTitles[index] ?? article.title`: an index past the end of
      the translated list reads `undefined` and falls back. */
  function DisplayTitle(translated: seq<string>, index: nat, article: Article): (title: string)
    ensures title in translated || title == article.title
    ensures index < |translated| ==> title == translated[index]
  {
    if index < |translated| then translated[index] else article.title
  }

  /** The titles the list renders, one per article in order. */
  function DisplayTitles(translated: seq<string>, articles: seq<Article>): seq<string>
  {
    seq(|articles|, i requires 0 <= i < |articles| => DisplayTitle(translated, i, articles[i]))
  }

  /** `articles.map(a => a.title)`, the texts handed to the hook. */
  function Titles(articles: seq<Article>): seq<string>
  {
    seq(|articles|, i requires 0 <= i < |articles| => articles[i].title)
  }

  /** Each shown title is the translation at its position when the translated
      list reaches that far, and the story's own title otherwise; with the
      untranslated titles the list shows every story's own title. */
  lemma DisplayTitlesFallBack(translated: seq<string>, articles: seq<Article>)
    ensures forall i :: 0 <= i < |articles| && i < |translated| ==>
              DisplayTitles(translated, articles)[i] == translated[i]
    ensures forall i :: |translated| <= i < |articles| ==>
              DisplayTitles(translated, articles)[i] == articles[i].title
    ensures DisplayTitles(Titles(articles), articles) == Titles(articles)
  {
  }

  /** `??` falls back only on a missing entry: an empty translation is shown
      as the empty string, not replaced by the original title. */
  lemma EmptyTranslationShown(article: Article)
    ensures DisplayTitle([""], 0, article) == ""
  {
  }

  /** `https://news.ycombinator.com/item?id=${objectID}`. */
  function HnItemUrl(article: Article): string
  {
    HnItemPrefix + article.objectId
  }

  /** Each story's item page is its own: two stories share an item URL
      exactly when they have the same id. */
  lemma HnItemUrlIdentifies(a: Article, b: Article)
    ensures HnItemUrl(a) == HnItemUrl(b) <==> a.objectId == b.objectId
  {
    if HnItemUrl(a) == HnItemUrl(b) {
      assert a.objectId == HnItemUrl(a)[|HnItemPrefix|..];
      assert b.objectId == HnItemUrl(b)[|HnItemPrefix|..];
    }
  }

  /** `article.url || hnUrl`: a null or empty url links to the story's page
      on the news site. The link is never empty, and it is either the
      story's own url or its item page. */
  function LinkUrl(article: Article): (link: string)
    ensures link != ""
    ensures article.url == Some(link) || link == HnItemUrl(article)
  {
    if article.url.Some? && article.url.value != "" then article.url.value else HnItemUrl(article)
  }

  /** `getDomain(url)`. The URL parser, `www.` stripping included, is the
      `hostname` parameter; it answers None where `new URL` throws. The
      domain shown is the news site's or the one the parser read from the
      story's own url. */
  function Domain(url: Option<string>, hostname: string -> Option<string>): (domain: string)
    ensures domain == HnHost || (url.Some? && url.value != "" && hostname(url.value) == Some(domain))
  {
    if url.None? || url.value == "" then HnHost
    else match hostname(url.value)
      case Some(host) => host
      case None => HnHost
  }

  /** A story without a url, or with an empty one, shows the news site as its
      domain, as does one whose url the parser rejects. */
  lemma MissingUrlFallsBack(article: Article, hostname: string -> Option<string>)
    ensures article.url.None? || article.url == Some("") ==> Domain(article.url, hostname) == HnHost
    ensures article.url.Some? && hostname(article.url.value).None? ==> Domain(article.url, hostname) == HnHost
    ensures article.url.Some? && article.url.value != "" && hostname(article.url.value).Some? ==>
              Domain(article.url, hostname) == hostname(article.url.value).value
  {
  }

  /** A story without a url, or with an empty one, links to its item page on
      the news site; a story with a url links to it. */
  lemma LinkFallsBack(article: Article)
    ensures article.url.None? || article.url == Some("") ==> LinkUrl(article) == HnItemUrl(article)
    ensures article.url.Some? && article.url.value != "" ==> LinkUrl(article) == article.url.value
  {
  }

  /** In English mode the list shows every story's own title: the hook
      passes the titles through and the display takes them position by
      position. */
  lemma EnglishShowsOwnTitles(s: Hook.State, articles: seq<Article>)
    ensures var t := Hook.Step(s, Hook.Change(Titles(articles), Hook.En));
      DisplayTitles(t.translated, articles) == Titles(articles) && !t.loading
  {
  }
}

=== FILE: route.dfy ===
/** The batch translation endpoint: `POST` with `{texts, targetLang}` answers
    `{translations}` in input order, consulting a process-wide cache that never
    loses a key, keyed `targetLang:text` and calling the upstream translator once for
    every text the cache does not answer. Any failure after validation turns
    the whole batch into a 502.

    The upstream translator is a parameter: a function from (text, target
    language) to what its HTTP reply turned out to be. Because it is a
    function, it is deterministic: duplicate texts of one batch write the
    same value, which the Store lemmas rely on. */
module Route {
  import opened Base

  /** One element of the upstream's `data[0]`: `[translated, original, ...]`. */
  type Segment = seq<string>

  /** What fetching the upstream URL produced. */
  datatype Reply =
    | Unreachable
      // `fetch` rejected before any status was seen
    | Received(status: int, segments: Option<seq<Segment>>)
      // `segments` is None when `res.json()` or `data[0].map(...)` throws

  /** Why `translateText` threw. */
  datatype Failure = NetworkError | BadStatus(status: int) | BadPayload

  /** The upstream translator: (text, targetLang) to its reply. */
  type Upstream = (string, string) -> Reply

  /** `Response.ok`: a status in the 2xx range. */
  predicate IsOk(status: int)
  {
    200 <= status <= 299
  }

  /** `segment[0]`; an empty segment yields `undefined`, which `join` renders
      as the empty string. */
  function SegmentText(segment: Segment): string
  {
    if |segment| == 0 then "" else segment[0]
  }

  /** `data[0].map(segment => segment[0])`. */
  function SegmentTexts(segments: seq<Segment>): seq<string>
  {
    seq(|segments|, i requires 0 <= i < |segments| => SegmentText(segments[i]))
  }

  /** The string `translateText` builds from an upstream payload. */
  function JoinSegments(segments: seq<Segment>): string
  {
    Join(SegmentTexts(segments), "")
  }

  /** `translateText(text, targetLang)`: one upstream call, turned into the
      concatenated translation or the reason it threw. */
  function TranslateText(upstream: Upstream, text: string, targetLang: string): (r: Result<string, Failure>)
    ensures r.Ok? <==> upstream(text, targetLang).Received?
                       && IsOk(upstream(text, targetLang).status)
                       && upstream(text, targetLang).segments.Some?
    ensures r.Ok? ==> r.value == JoinSegments(upstream(text, targetLang).segments.value)
    ensures upstream(text, targetLang).Received? && !IsOk(upstream(text, targetLang).status)
            ==> r == Err(BadStatus(upstream(text, targetLang).status))
  {
    match upstream(text, targetLang)
    case Unreachable => Err(NetworkError)
    case Received(status, segments) =>
      if !IsOk(status) then Err(BadStatus(status))
      else if segments.None? then Err(BadPayload)
      else Ok(JoinSegments(segments.value))
  }

  /** No segments give the empty string and one segment gives its first
      element. */
  lemma JoinSegmentsSmall(s: Segment)
    ensures JoinSegments([]) == ""
    ensures |s| > 0 ==> JoinSegments([s]) == s[0]
  {
  }

  /** The translation is the first elements of the segments in segment
      order, with nothing in between: the translation of a payload split in
      two is the translation of the first half followed by that of the
      second. */
  lemma JoinSegmentsInOrder(a: seq<Segment>, b: seq<Segment>)
    ensures JoinSegments(a + b) == JoinSegments(a) + JoinSegments(b)
  {
    assert SegmentTexts(a + b) == SegmentTexts(a) + SegmentTexts(b);
    JoinEmptyAppend(SegmentTexts(a), SegmentTexts(b));
  }

  // ---------------------------------------------------------------------
  // The process-wide cache

  /** `new Map<string, string>()` living as long as the server process. */
  type Cache = map<string, string>

  /** The cache key `${targetLang}:${text}`. */
  function Key(targetLang: string, text: string): string
  {
    targetLang + ":" + text
  }

  /** `if (cached)`: a stored empty string is falsy and counts as a miss. */
  predicate Hit(cache: Cache, key: string)
  {
    key in cache && cache[key] != ""
  }

  /** Across target languages keys can collide: a colon inside the language
      or the text moves the boundary between the two. */
  lemma KeyCollides()
    ensures Key("zh", "CN:x") == Key("zh:CN", "x")
  {
  }

  /** Within one target language, distinct texts have distinct keys. */
  lemma KeyInjective(targetLang: string, t: string, u: string)
    ensures Key(targetLang, t) == Key(targetLang, u) <==> t == u
  {
    if Key(targetLang, t) == Key(targetLang, u) {
      assert t == Key(targetLang, t)[|targetLang| + 1..];
      assert u == Key(targetLang, u)[|targetLang| + 1..];
    }
  }

  /** What the per-text closure inside `Promise.all` came to. */
  datatype Item = Cached(value: string) | Fetched(value: string) | Failed(failure: Failure)

  /** One text of the batch, looked up in the cache as it stood when the
      batch started: every lookup runs before any upstream call resumes. */
  function Resolve(upstream: Upstream, snapshot: Cache, targetLang: string, text: string): (item: Item)
    ensures item.Cached? <==> Hit(snapshot, Key(targetLang, text))
    ensures item.Cached? ==> item.value != "" && item.value == snapshot[Key(targetLang, text)]
    ensures !item.Cached? ==> (item.Failed? <==> TranslateText(upstream, text, targetLang).Err?)
  {
    var key := Key(targetLang, text);
    if Hit(snapshot, key) then Cached(snapshot[key])
    else match TranslateText(upstream, text, targetLang)
      case Ok(v) => Fetched(v)
      case Err(f) => Failed(f)
  }

  /** The texts handed to the upstream translator, in the order the closures
      started: every text the snapshot does not answer, duplicates included. */
  function Misses(snapshot: Cache, targetLang: string, texts: seq<string>): seq<string>
  {
    if |texts| == 0 then []
    else
      var rest := Misses(snapshot, targetLang, texts[1..]);
      if Hit(snapshot, Key(targetLang, texts[0])) then rest else [texts[0]] + rest
  }

  /** The cache after every successful upstream call of the batch has run
      `cache.set(cacheKey, translated)`. The upstream being a function,
      duplicate texts write the same value, so the order of completion does
      not matter; input order is used. */
  function Store(upstream: Upstream, snapshot: Cache, targetLang: string, texts: seq<string>): (after: Cache)
    ensures snapshot.Keys <= after.Keys
    decreases |texts|
  {
    if |texts| == 0 then snapshot
    else
      var before := Store(upstream, snapshot, targetLang, texts[..|texts| - 1]);
      var text := texts[|texts| - 1];
      match Resolve(upstream, snapshot, targetLang, text)
      case Fetched(v) => before[Key(targetLang, text) := v]
      case _ => before
  }

  /** The batch's upstream call for `text` succeeded. */
  predicate Fetches(upstream: Upstream, snapshot: Cache, targetLang: string, text: string)
  {
    Resolve(upstream, snapshot, targetLang, text).Fetched?
  }

  /** The keys the batch writes. */
  function Written(upstream: Upstream, snapshot: Cache, targetLang: string, texts: seq<string>): set<string>
  {
    set i | 0 <= i < |texts| && Fetches(upstream, snapshot, targetLang, texts[i]) :: Key(targetLang, texts[i])
  }

  /** The batch adds exactly the keys of its successful upstream calls. */
  lemma {:induction false} StoreKeys(upstream: Upstream, snapshot: Cache, targetLang: string, texts: seq<string>)
    ensures Store(upstream, snapshot, targetLang, texts).Keys
            == snapshot.Keys + Written(upstream, snapshot, targetLang, texts)
    decreases |texts|
  {
    if |texts| > 0 {
      var n := |texts| - 1;
      StoreKeys(upstream, snapshot, targetLang, texts[..n]);
      var before := Store(upstream, snapshot, targetLang, texts[..n]);
      var w := Written(upstream, snapshot, targetLang, texts);
      var w0 := Written(upstream, snapshot, targetLang, texts[..n]);
      assert forall i :: 0 <= i < n ==> texts[..n][i] == texts[i];
      if Fetches(upstream, snapshot, targetLang, texts[n]) {
        assert Store(upstream, snapshot, targetLang, texts).Keys == before.Keys + {Key(targetLang, texts[n])};
        assert w == w0 + {Key(targetLang, texts[n])};
      } else {
        assert Store(upstream, snapshot, targetLang, texts) == before;
        assert w == w0;
      }
    }
  }

  /** A key the batch does not write keeps its value. */
  lemma {:induction false} StoreKeeps(upstream: Upstream, snapshot: Cache, targetLang: string, texts: seq<string>, k: string)
    requires k in snapshot && k !in Written(upstream, snapshot, targetLang, texts)
    ensures k in Store(upstream, snapshot, targetLang, texts)
    ensures Store(upstream, snapshot, targetLang, texts)[k] == snapshot[k]
    decreases |texts|
  {
    if |texts| > 0 {
      var n := |texts| - 1;
      assert forall i :: 0 <= i < n ==> texts[..n][i] == texts[i];
      assert k !in Written(upstream, snapshot, targetLang, texts[..n]);
      StoreKeeps(upstream, snapshot, targetLang, texts[..n], k);
    }
  }

  /** Every successful upstream call leaves its translation under its key. */
  lemma {:induction false} StoreWrites(upstream: Upstream, snapshot: Cache, targetLang: string, texts: seq<string>, i: nat)
    requires i < |texts| && Fetches(upstream, snapshot, targetLang, texts[i])
    ensures Key(targetLang, texts[i]) in Store(upstream, snapshot, targetLang, texts)
    ensures Store(upstream, snapshot, targetLang, texts)[Key(targetLang, texts[i])]
            == Resolve(upstream, snapshot, targetLang, texts[i]).value
    decreases |texts|
  {
    var n := |texts| - 1;
    if i < n {
      assert texts[..n][i] == texts[i];
      StoreWrites(upstream, snapshot, targetLang, texts[..n], i);
      KeyInjective(targetLang, texts[i], texts[n]);
    }
  }

  /** Each text is handed to the upstream translator exactly as often as it
      occurs in the batch when the snapshot does not answer it, and never
      when it does. Two equal texts in one batch therefore both miss. */
  lemma {:induction false} MissesCount(snapshot: Cache, targetLang: string, texts: seq<string>)
    ensures forall t ::
              multiset(Misses(snapshot, targetLang, texts))[t]
              == if Hit(snapshot, Key(targetLang, t)) then 0 else multiset(texts)[t]
    decreases |texts|
  {
    if |texts| > 0 {
      MissesCount(snapshot, targetLang, texts[1..]);
      assert texts == [texts[0]] + texts[1..];
    }
  }

  // ---------------------------------------------------------------------
  // The request handler

  /** The request body as the handler's first line sees it. */
  datatype Request =
    | Unparseable
      // `request.json()` throws, or yields `null`, which the destructuring
      // `const { texts, targetLang } = ...` cannot take apart
    | Body(texts: Option<seq<string>>, targetLang: Option<string>)

  datatype Payload = Translations(translations: seq<string>) | Error(message: string)

  datatype Response = Response(status: int, payload: Payload)

  const MissingFields := "Missing texts or targetLang"
  const Unavailable := "Translation service unavailable"

  /** What one `POST` answers, the cache it leaves behind, and the texts it
      handed to the upstream translator in call order. */
  datatype Outcome = Outcome(response: Response, cache: Cache, calls: seq<string>)

  /** `!texts?.length || !targetLang` is false: `texts` is a non-empty list
      and `targetLang` a non-empty string. */
  predicate Valid(request: Request)
  {
    && request.Body?
    && request.texts.Some? && |request.texts.value| > 0
    && request.targetLang.Some? && request.targetLang.value != ""
  }

  /** The per-text results `Promise.all` collects, in input order. */
  function Items(upstream: Upstream, snapshot: Cache, targetLang: string, texts: seq<string>): (items: seq<Item>)
    // These two clauses only spell out the comprehension for the verifier.
    ensures |items| == |texts|
    ensures forall i :: 0 <= i < |texts| ==> items[i] == Resolve(upstream, snapshot, targetLang, texts[i])
  {
    seq(|texts|, i requires 0 <= i < |texts| => Resolve(upstream, snapshot, targetLang, texts[i]))
  }

  /** `Promise.all` resolves only when every closure resolved. */
  predicate AllResolved(items: seq<Item>)
  {
    forall i :: 0 <= i < |items| ==> !items[i].Failed?
  }

  /** The resolved values, in the order of the items. */
  function Values(items: seq<Item>): seq<string>
    requires AllResolved(items)
  {
    seq(|items|, i requires 0 <= i < |items| => items[i].value)
  }

  /** `POST(request)`, from the body it parsed to the response it returns. */
  function Post(upstream: Upstream, cache: Cache, request: Request): (o: Outcome)
    ensures o.response.status == 200 || o.response.status == 400 || o.response.status == 502
    ensures o.response.status == 200 <==> o.response.payload.Translations?
    ensures o.response.status == 200 ==>
              Valid(request) && |o.response.payload.translations| == |request.texts.value|
    ensures cache.Keys <= o.cache.Keys
  {
    if request.Unparseable? then
      Outcome(Response(502, Error(Unavailable)), cache, [])
    else if !Valid(request) then
      Outcome(Response(400, Error(MissingFields)), cache, [])
    else
      var texts, lang := request.texts.value, request.targetLang.value;
      var items := Items(upstream, cache, lang, texts);
      var after := Store(upstream, cache, lang, texts);
      var calls := Misses(cache, lang, texts);
      if AllResolved(items) then Outcome(Response(200, Translations(Values(items))), after, calls)
      else Outcome(Response(502, Error(Unavailable)), after, calls)
  }

  /** A body with no texts, an empty list of texts, or a missing or empty
      target language is answered 400 with the fixed message; the upstream is
      never called and the cache is untouched. A body that parses and passes
      this test is never answered 400. */
  lemma PostRejectsMissingFields(upstream: Upstream, cache: Cache, request: Request)
    requires request.Body?
    ensures Post(upstream, cache, request).response.status == 400 <==> !Valid(request)
    ensures !Valid(request) ==>
              Post(upstream, cache, request) == Outcome(Response(400, Error(MissingFields)), cache, [])
  {
  }

  /** A body that is not JSON makes `request.json()` throw inside the `try`,
      and a `null` body makes the destructuring throw there; either is
      answered 502, not 400, again without any upstream call. */
  lemma UnparseableIs502(upstream: Upstream, cache: Cache)
    ensures Post(upstream, cache, Unparseable) == Outcome(Response(502, Error(Unavailable)), cache, [])
  {
  }

  /** The translation the batch gives for `text` when every call succeeds. */
  function Expected(upstream: Upstream, cache: Cache, targetLang: string, text: string): string
  {
    if Hit(cache, Key(targetLang, text)) then cache[Key(targetLang, text)]
    else
      var r := TranslateText(upstream, text, targetLang);
      if r.Ok? then r.value else ""
  }

  /** Every upstream call the batch makes succeeds. */
  predicate CallsSucceed(upstream: Upstream, cache: Cache, targetLang: string, texts: seq<string>)
  {
    forall i :: 0 <= i < |texts| && !Hit(cache, Key(targetLang, texts[i])) ==>
      TranslateText(upstream, texts[i], targetLang).Ok?
  }

  /** A valid batch either succeeds as a whole, with one translation per text
      in input order (the cached value for a cache hit, the upstream's
      translation otherwise), or fails as a whole with 502 and no
      translations; it succeeds exactly when every upstream call succeeds. */
  lemma PostAllOrNothing(upstream: Upstream, cache: Cache, texts: seq<string>, targetLang: string)
    requires |texts| > 0 && targetLang != ""
    ensures var r := Post(upstream, cache, Body(Some(texts), Some(targetLang))).response;
      r.status == 200 || r == Response(502, Error(Unavailable))
    ensures var r := Post(upstream, cache, Body(Some(texts), Some(targetLang))).response;
      r.status == 200 <==> CallsSucceed(upstream, cache, targetLang, texts)
    ensures var r := Post(upstream, cache, Body(Some(texts), Some(targetLang))).response;
      r.status == 200 ==>
        && r.payload.Translations?
        && |r.payload.translations| == |texts|
        && forall i :: 0 <= i < |texts| ==>
             r.payload.translations[i] == Expected(upstream, cache, targetLang, texts[i])
  {
  }

  /** One upstream failure, a non-2xx status in particular, on any text the
      cache does not answer collapses the batch into the 502 answer. */
  lemma UpstreamFailureIs502(upstream: Upstream, cache: Cache, texts: seq<string>, targetLang: string, i: nat)
    requires targetLang != "" && i < |texts|
    requires !Hit(cache, Key(targetLang, texts[i]))
    requires TranslateText(upstream, texts[i], targetLang).Err?
    ensures Post(upstream, cache, Body(Some(texts), Some(targetLang))).response
            == Response(502, Error(Unavailable))
  {
  }

  /** The upstream is called for a text exactly when the cache held no
      non-empty value for its key at the start of the batch, once per
      occurrence, and for nothing outside the batch. */
  lemma PostCallsOnlyMisses(upstream: Upstream, cache: Cache, texts: seq<string>, targetLang: string)
    requires |texts| > 0 && targetLang != ""
    ensures var calls := Post(upstream, cache, Body(Some(texts), Some(targetLang))).calls;
      forall t :: multiset(calls)[t] == if Hit(cache, Key(targetLang, t)) then 0 else multiset(texts)[t]
    ensures var calls := Post(upstream, cache, Body(Some(texts), Some(targetLang))).calls;
      forall i :: 0 <= i < |texts| ==> (texts[i] in calls <==> !Hit(cache, Key(targetLang, texts[i])))
  {
    var calls := Post(upstream, cache, Body(Some(texts), Some(targetLang))).calls;
    MissesCount(cache, targetLang, texts);
    forall i | 0 <= i < |texts|
      ensures texts[i] in calls <==> !Hit(cache, Key(targetLang, texts[i]))
    {
      assert texts[i] in multiset(texts);
      assert texts[i] in calls <==> texts[i] in multiset(calls);
    }
  }

  /** After any valid batch, successful or not, the cache still holds every
      key it held, with unchanged values for the entries that answered
      lookups; each successful upstream call has stored its translation under
      its key, a stored empty string included; nothing else was added. */
  lemma PostCacheAppendOnly(upstream: Upstream, cache: Cache, texts: seq<string>, targetLang: string)
    requires |texts| > 0 && targetLang != ""
    ensures var after := Post(upstream, cache, Body(Some(texts), Some(targetLang))).cache;
      after.Keys == cache.Keys + Written(upstream, cache, targetLang, texts)
    ensures var after := Post(upstream, cache, Body(Some(texts), Some(targetLang))).cache;
      forall k :: Hit(cache, k) ==> k in after && after[k] == cache[k]
    ensures var after := Post(upstream, cache, Body(Some(texts), Some(targetLang))).cache;
      forall i :: 0 <= i < |texts| && !Hit(cache, Key(targetLang, texts[i]))
                  && TranslateText(upstream, texts[i], targetLang).Ok? ==>
        Key(targetLang, texts[i]) in after
        && after[Key(targetLang, texts[i])] == TranslateText(upstream, texts[i], targetLang).value
  {
    StoreKeys(upstream, cache, targetLang, texts);
    forall k | Hit(cache, k)
      ensures k in Store(upstream, cache, targetLang, texts)
      ensures Store(upstream, cache, targetLang, texts)[k] == cache[k]
    {
      StoreKeeps(upstream, cache, targetLang, texts, k);
    }
    forall i | 0 <= i < |texts| && !Hit(cache, Key(targetLang, texts[i]))
               && TranslateText(upstream, texts[i], targetLang).Ok?
      ensures Key(targetLang, texts[i]) in Store(upstream, cache, targetLang, texts)
      ensures Store(upstream, cache, targetLang, texts)[Key(targetLang, texts[i])]
              == TranslateText(upstream, texts[i], targetLang).value
    {
      StoreWrites(upstream, cache, targetLang, texts, i);
    }
  }

  /** After a successful batch every key of the batch maps to the text's
      translation, so a second look-up answers every text whose translation
      is non-empty and misses, then fetches the same empty string, for the
      others. */
  lemma {:induction false} SuccessSettlesCache(upstream: Upstream, cache: Cache, texts: seq<string>, targetLang: string)
    requires |texts| > 0 && targetLang != ""
    requires Post(upstream, cache, Body(Some(texts), Some(targetLang))).response.status == 200
    ensures var first := Post(upstream, cache, Body(Some(texts), Some(targetLang)));
      forall i :: 0 <= i < |texts| ==>
        Key(targetLang, texts[i]) in first.cache
        && first.cache[Key(targetLang, texts[i])] == Expected(upstream, cache, targetLang, texts[i])
    ensures var first := Post(upstream, cache, Body(Some(texts), Some(targetLang)));
      forall i :: 0 <= i < |texts| ==>
        Resolve(upstream, first.cache, targetLang, texts[i])
        == if Expected(upstream, cache, targetLang, texts[i]) == "" then Fetched("")
           else Cached(Expected(upstream, cache, targetLang, texts[i]))
  {
    var c1 := Post(upstream, cache, Body(Some(texts), Some(targetLang))).cache;
    PostAllOrNothing(upstream, cache, texts, targetLang);
    PostCacheAppendOnly(upstream, cache, texts, targetLang);
    forall i | 0 <= i < |texts|
      ensures Key(targetLang, texts[i]) in c1
      ensures c1[Key(targetLang, texts[i])] == Expected(upstream, cache, targetLang, texts[i])
    {
    }
  }

  /** What a second lookup of a text finds after the batch, given what the
      first lookup found: a value from the cache or a non-empty translation
      is now a cache answer, an empty translation is fetched again, and a
      failure fails again. */
  function Again(item: Item): Item
  {
    match item
    case Cached(v) => Cached(v)
    case Fetched(v) => if v == "" then Fetched("") else Cached(v)
    case Failed(f) => Failed(f)
  }

  /** After a batch, successful or not, each of its texts resolves against
      the new cache as `Again` says: a failed text's key was never written,
      so it is still not answered, and a fetched text's key holds its
      translation. */
  lemma {:induction false} ResolveAgain(upstream: Upstream, cache: Cache, targetLang: string, texts: seq<string>, i: nat)
    requires i < |texts|
    ensures Resolve(upstream, Store(upstream, cache, targetLang, texts), targetLang, texts[i])
            == Again(Resolve(upstream, cache, targetLang, texts[i]))
  {
    var key := Key(targetLang, texts[i]);
    if Fetches(upstream, cache, targetLang, texts[i]) {
      StoreWrites(upstream, cache, targetLang, texts, i);
    } else {
      forall j | 0 <= j < |texts| && Fetches(upstream, cache, targetLang, texts[j])
        ensures Key(targetLang, texts[j]) != key
      {
        KeyInjective(targetLang, texts[i], texts[j]);
      }
      assert key !in Written(upstream, cache, targetLang, texts);
      StoreKeys(upstream, cache, targetLang, texts);
      if key in cache {
        StoreKeeps(upstream, cache, targetLang, texts, key);
      }
    }
  }

  /** The same batch sent again, to the same upstream, gets the same
      response, whether the first one succeeded or failed. */
  lemma {:induction false} RepeatAnswers(upstream: Upstream, cache: Cache, texts: seq<string>, targetLang: string)
    requires |texts| > 0 && targetLang != ""
    ensures var first := Post(upstream, cache, Body(Some(texts), Some(targetLang)));
      Post(upstream, first.cache, Body(Some(texts), Some(targetLang))).response == first.response
  {
    var c1 := Store(upstream, cache, targetLang, texts);
    var items1 := Items(upstream, cache, targetLang, texts);
    var items2 := Items(upstream, c1, targetLang, texts);
    forall i | 0 <= i < |texts|
      ensures items2[i] == Again(items1[i])
    {
      ResolveAgain(upstream, cache, targetLang, texts, i);
    }
    assert AllResolved(items2) <==> AllResolved(items1);
    if AllResolved(items1) {
      assert Values(items2) == Values(items1);
    }
  }

  /** A batch whose successful calls all return the empty string already
      stored under their keys leaves the cache as it found it. */
  lemma {:induction false} StoreIdle(upstream: Upstream, snapshot: Cache, targetLang: string, texts: seq<string>)
    requires forall i :: 0 <= i < |texts| && Fetches(upstream, snapshot, targetLang, texts[i]) ==>
               Key(targetLang, texts[i]) in snapshot && snapshot[Key(targetLang, texts[i])] == ""
               && Resolve(upstream, snapshot, targetLang, texts[i]).value == ""
    ensures Store(upstream, snapshot, targetLang, texts) == snapshot
  {
    StoreKeys(upstream, snapshot, targetLang, texts);
    var after := Store(upstream, snapshot, targetLang, texts);
    forall k | k in snapshot
      ensures after[k] == snapshot[k]
    {
      if k in Written(upstream, snapshot, targetLang, texts) {
        var i :| 0 <= i < |texts| && Fetches(upstream, snapshot, targetLang, texts[i]) && k == Key(targetLang, texts[i]);
        StoreWrites(upstream, snapshot, targetLang, texts, i);
      } else {
        StoreKeeps(upstream, snapshot, targetLang, texts, k);
      }
    }
  }

  /** The same batch sent again writes only empty strings where empty
      strings already are, so it leaves the cache as the first batch left
      it, whether the first one succeeded or failed. */
  lemma {:induction false} RepeatKeepsCache(upstream: Upstream, cache: Cache, texts: seq<string>, targetLang: string)
    requires |texts| > 0 && targetLang != ""
    ensures var c1 := Post(upstream, cache, Body(Some(texts), Some(targetLang))).cache;
      Post(upstream, c1, Body(Some(texts), Some(targetLang))).cache == c1
  {
    var c1 := Store(upstream, cache, targetLang, texts);
    forall i | 0 <= i < |texts| && Fetches(upstream, c1, targetLang, texts[i])
      ensures Key(targetLang, texts[i]) in c1 && c1[Key(targetLang, texts[i])] == ""
      ensures Resolve(upstream, c1, targetLang, texts[i]).value == ""
    {
      ResolveAgain(upstream, cache, targetLang, texts, i);
      StoreWrites(upstream, cache, targetLang, texts, i);
    }
    StoreIdle(upstream, c1, targetLang, texts);
  }

  /** Sending the same batch again, to the same upstream, gives the same
      answer and leaves the cache as it was, whether the first batch
      succeeded or failed. The second time, the only texts sent upstream are
      those whose call failed or whose translation is the empty string; after
      a success, those whose translation is the empty string. */
  lemma {:induction false} PostIdempotent(upstream: Upstream, cache: Cache, texts: seq<string>, targetLang: string)
    requires |texts| > 0 && targetLang != ""
    ensures var first := Post(upstream, cache, Body(Some(texts), Some(targetLang)));
      Post(upstream, first.cache, Body(Some(texts), Some(targetLang))).response == first.response
    ensures var first := Post(upstream, cache, Body(Some(texts), Some(targetLang)));
      Post(upstream, first.cache, Body(Some(texts), Some(targetLang))).cache == first.cache
    ensures var first := Post(upstream, cache, Body(Some(texts), Some(targetLang)));
      var second := Post(upstream, first.cache, Body(Some(texts), Some(targetLang)));
      forall i :: 0 <= i < |texts| ==>
        (texts[i] in second.calls <==>
           Resolve(upstream, cache, targetLang, texts[i]).Failed?
           || Resolve(upstream, cache, targetLang, texts[i]).value == "")
    ensures var first := Post(upstream, cache, Body(Some(texts), Some(targetLang)));
      var second := Post(upstream, first.cache, Body(Some(texts), Some(targetLang)));
      first.response.status == 200 ==>
        forall i :: 0 <= i < |texts| ==>
          (texts[i] in second.calls <==> first.response.payload.translations[i] == "")
  {
    var first := Post(upstream, cache, Body(Some(texts), Some(targetLang)));
    RepeatAnswers(upstream, cache, texts, targetLang);
    RepeatKeepsCache(upstream, cache, texts, targetLang);
    PostAllOrNothing(upstream, cache, texts, targetLang);
    PostCallsOnlyMisses(upstream, first.cache, texts, targetLang);
    forall i | 0 <= i < |texts|
      ensures !Hit(first.cache, Key(targetLang, texts[i])) <==>
                Resolve(upstream, cache, targetLang, texts[i]).Failed?
                || Resolve(upstream, cache, targetLang, texts[i]).value == ""
    {
      ResolveAgain(upstream, cache, targetLang, texts, i);
    }
  }

  /** The worked example: one English text, an upstream answering with one
      segment, and a cold cache give that segment's first element. */
  lemma HelloWorldExample()
    ensures var up: Upstream := (text, lang) => Received(200, Some([["你好，世界", "Hello world"]]));
      Post(up, map[], Body(Some(["Hello world"]), Some("zh-CN"))).response
      == Response(200, Translations(["你好，世界"]))
  {
    var up: Upstream := (text, lang) => Received(200, Some([["你好，世界", "Hello world"]]));
    assert SegmentTexts([["你好，世界", "Hello world"]]) == ["你好，世界"];
    assert TranslateText(up, "Hello world", "zh-CN") == Ok("你好，世界");
    var items := Items(up, map[], "zh-CN", ["Hello world"]);
    assert items == [Fetched("你好，世界")];
    assert AllResolved(items);
    assert Values(items) == ["你好，世界"];
  }
}
